=== FILE: README.md ===
# Member mailing list: ingestion, edit and dispatch

This project is a Dafny model of the member-list backend of a dispute-resolution
mailing service. It covers four things. The member schema is read as a
normalise-then-validate function. The spreadsheet upload maps rows to candidate
records and inserts only the ones whose email is new. The edit handler merges an
email and a message into one member. The send handler mails a personalised
invitation to each target and sets that member's `email_sent` flag once the mail
gateway accepts it.

The collection is a sequence of member documents, and a document's id is its
position. The mail gateway is a pure oracle `Mail -> Reply` that either
delivers or rejects with an error message. The spreadsheet parser is replaced by
its output: a sequence of rows, each a map from column header to value.

Modules, leaf to root:

- `Wrappers`: `Option` and `Result`.
- `Js`: the JavaScript value semantics the handlers rely on. It covers
  `undefined`/`null`/string, truthiness, `??` and template interpolation.
- `Text`: `trim` over ECMAScript's full WhiteSpace and LineTerminator set,
  ASCII `toLowerCase`, `split(' ')[0]`, and `replace(/\n/g, "<br>")`.
- `Schema`: the member document, and the setters, defaults and validators of
  the member schema. This includes a single-pass matcher for
  `/^\S+@\S+\.\S+$/`, proved equal to the pattern's language.
- `Collection`: the store, id resolution, the set of stored emails and the
  uniqueness predicate.
- `Invitation`: the invitation subject, the letter with its name slot, the first
  name, and the HTML mail body.
- `Ingest`: row extraction, the in-order upload loop and the upload route.
- `Crud`: the create route and the edit route.
- `Dispatch`: the send route, written as a sequential fold. It is proved to give
  every target the outcome it would get alone against the original collection.

Behaviour that the model takes from the handler code, stated here because it is
easy to get wrong:

- A row with a new email that the schema then rejects does not become a skipped
  row. `Member.create` throws and the whole upload answers with a server error.
  Rows inserted before it stay in the collection. A schema rejection happens for
  a blank name, or an email that does not match the pattern.
- Mongoose's `required` rejects the empty string. A name that is only spaces
  therefore fails once the `trim` setter has run.
- The `match` validator skips an empty email. An edit whose email is only
  spaces is truthy, so it is applied, and it stores the empty string.
- Assigning the email in the edit handler runs the schema's `lowercase`
  setter, so the stored email is trimmed and lowercased.
- The send handler changes only `email_sent`. It does not rewrite the stored
  message. The mail goes to the email in the payload, not the stored one.
- After a delivered mail the send handler saves the member, and that save runs
  the schema validators. A stored document they reject gives a failed outcome
  with the validation message even though the mail went out, and the flag is
  not written. Documents written by the create, upload and edit routes always pass.
- The letter attached at upload interpolates the raw cell value of `name`. A
  missing name gives `Dear undefined`.

## Model

| member | source | states |
|---|---|---|
| Text.Trim | Routes/user.js:119-125 | the result is the infix of the input left after dropping a run of space characters at each end, and neither end of the result is a space |
| Text.TrimIdempotent | Routes/user.js:175 | trimming an already trimmed email again, as the upload loop does, changes nothing |
| Text.Lower | Routes/user.js:175 | lowercasing keeps the length and maps every character through ASCII lowercasing |
| Text.LowerIdempotent | Models/member.js:12 | the lowercase setter leaves an already lowercased email unchanged |
| Text.BeforeFirstSpace | Routes/user.js:220 | `split(' ')[0]` is the longest prefix without a U+0020 space: it contains none, and it is either the whole string or followed by one |
| Text.BreakLines | Routes/user.js:266 | a lone newline becomes `<br>`, text without newlines passes through unchanged, and the result contains no newline |
| Text.BreakLinesAppend | Routes/user.js:266 | the newline replacement distributes over concatenation |
| Schema.EmailPatternIsRegex | Models/member.js:13 | the leftmost-`@`/rightmost-`.` matcher accepts exactly the strings of `/^\S+@\S+\.\S+$/`: no whitespace, an `@` after at least one character, a `.` at least two characters later, and at least one character after it |
| Schema.EmailRegexLower | Models/member.js:10-13 | the pattern is matched after lowercasing, and lowercasing never changes whether it matches |
| Schema.MatchesEmailPattern | Models/member.js:13 | the `match` validator's test accepts exactly the strings of `/^\S+@\S+\.\S+$/` |
| Schema.Cast | Models/member.js:5-49 | construction takes every field from the draft: the name trimmed (empty exactly when it is missing or blank), the email lowercased, state, licensedBy and licenseNumber trimmed when present and absent otherwise, number and field as given, subject, body and `email_sent` as given, and `""`/`false` when they are missing; each result field is in the form its setter leaves |
| Schema.Errors | Models/member.js:5-14 | `required` fails exactly on an empty name; `match` fails exactly on a present, non-empty email outside the pattern; the errors come in schema order, `name` before `email`, each at most once |
| Schema.Validate | Models/member.js:3-52 | a draft is accepted if and only if it has a non-blank name and its email is absent, empty or matches; the errors name each failing field, in schema order and each once; the accepted document has trimmed name, state, licensedBy and licenseNumber (an absent one stays absent), a lowercased email, number and field as given, and `""`/`false` defaults for the message and `email_sent` |
| Schema.ValidateStored | Models/member.js:5-49 | a stored document validates to itself: the schema is a normaliser |
| Schema.ValidateIdempotent | Models/member.js:5-49 | validating the result of a successful validation gives the same result |
| Collection.FindById | Routes/user.js:44-48 | a malformed id throws the cast error, an unknown id yields no document, and a known id yields the document at that position |
| Collection.FindOne | Routes/user.js:182-183 | the lookup finds the first document with the given email, and finds one exactly when the email is among the stored emails |
| Js.NullishVersusTruthy | Routes/user.js:51-58 | `??` and the truthiness test pick the same string except for an empty string with a non-empty fallback; `undefined` and `null` are never truthy and always fall back |
| Collection.Insert | Routes/user.js:186 | creation appends exactly the new document; the stored emails grow by its email; uniqueness survives when that email was not stored |
| Invitation.FirstName | Routes/user.js:220 | the first name is a prefix of the trimmed name with no U+0020 space, ends at the first such space, and is empty only for a blank name |
| Invitation.MailBody | Routes/user.js:222-266 | the rendered HTML body has no newline |
| Invitation.MailBodyLayout | Routes/user.js:222-266 | the body is the greeting, the first name with its newlines replaced, then the rest of the letter with its newlines replaced |
| Ingest.Extract | Routes/user.js:106-170 | absent fields default to number `""`, field `"N/A"`, state, licensedBy and licenseNumber `""`; a missing name or email stays absent, as does any `null` cell; every other value becomes its trimmed text; the message is the fixed subject and the letter with the raw name |
| Ingest.Pick | Routes/user.js:107-115 | a destructuring default applies exactly when the key is absent or `undefined`; a `null` cell is kept |
| Ingest.ExtractAll | Routes/user.js:106-170 | one candidate per row, in row order, each the extraction of its row |
| Ingest.ToDraft | Routes/user.js:186 | the record handed to `Member.create` carries the lookup key as its email; it is accepted exactly when the name is non-blank and the key is empty or matches; the created document keeps the key, the row's message and an unset `email_sent`, and carries the row's name, state, licensedBy and licenseNumber trimmed and its number and field unchanged |
| Ingest.EmailKey | Routes/user.js:175-176 | the lookup key is empty exactly when the row has no email or only spaces, and is otherwise the trimmed, lowercased email |
| Ingest.IngestOne | Routes/user.js:173-189 | a row without an email is skipped as "Missing email" and the collection is not consulted; a stored email gives "Email already exists" and an untouched collection; a new email is inserted under its normalised form; the stored emails grow by exactly the row's key |
| Ingest.InsertionValidated | Routes/user.js:186 | a row with a new email aborts the loop exactly when the schema rejects its record, and is otherwise inserted as the schema normalises it |
| Ingest.CountsPartition | Routes/user.js:191-195 | the inserted and skipped counts add up to the number of outcomes |
| Ingest.IngestAll | Routes/user.js:173-189 | a completed loop has one outcome per row; an aborted one stops before the end; the collection only grows, by one document per insertion |
| Ingest.IngestStore | Routes/user.js:173-189 | the collection after the loop is the original one followed by the inserted documents in row order, also after an abort |
| Ingest.IngestEmails | Routes/user.js:173-189 | the stored emails afterwards are the original ones plus the keys of the rows processed; the loop never creates two documents with the same email |
| Ingest.RowOutcomeIs | Routes/user.js:173-189 | row i is skipped as missing, skipped as duplicate, or inserted with its normalised email, decided by its key against the original emails plus those of all earlier rows |
| Ingest.DuplicateInBatchSkipped | Routes/user.js:181-185 | a row repeating the normalised email of an earlier row of the same upload is skipped as a duplicate |
| Ingest.AbortedAt | Routes/user.js:186 | an aborted upload stopped at a row whose email was new and whose record the schema rejected, with that row's errors |
| Ingest.Upload | Routes/user.js:85-201 | no file and an empty sheet leave the collection untouched; a completed upload reports inserted + skipped = count = number of rows and grows the collection by the inserted count; a server error from a rejected row leaves at least one row uninserted; the collection is only extended; uniqueness of emails is preserved; for a non-empty sheet the collection is the one the loop over the extracted rows leaves, the inserted count is the loop's, and an abort answers with the rejected row's validation message |
| Crud.Create | Routes/user.js:14-22 | the create route saves exactly the drafts the schema accepts; the appended document is the one validation makes of the draft; a bad request carries the validation message and leaves the collection unchanged |
| Crud.CreateAllowsDuplicate | Models/member.js:10-14 | no uniqueness constraint: creating a member whose email is already stored succeeds and leaves two documents with that email |
| Crud.Merge | Routes/user.js:51-60 | the email is replaced, trimmed and lowercased, only by a truthy value; the message is rebuilt only if subject or body is truthy, each part taking the supplied value unless it is `undefined`/`null`; no other field changes |
| Crud.MergeMessageCases | Routes/user.js:55-60 | a subject alone keeps the stored body; a body alone keeps the stored subject; an empty subject next to a body overwrites the subject; an empty subject alone changes nothing |
| Crud.Edit | Routes/user.js:39-73 | a malformed id is a server error and an unknown id is not found, both with no change; otherwise the merged document is saved exactly when the validators pass, and only that document is replaced; a merged document the validators reject is a server error with no change |
| Crud.EditAllowsDuplicate | Routes/user.js:51-63 | the edit route does not re-check uniqueness: it saves an email that another member already has |
| Dispatch.DispatchOne | Routes/user.js:208-282 | the outcome carries the payload email; only a resolving id with a name reaches the gateway; an unknown id fails with "Member not found"; a found member with an `undefined` or `null` name fails with the message of the error `toString` throws; the mail goes to the payload email with the fixed subject and a newline-free body; success holds exactly when the gateway delivered and the save's validators accept the stored document; a rejection's message becomes the reason, and a rejected save gives the validation message; only that member's `email_sent` is set, and only on success |
| Dispatch.StoredDocumentSaves | Routes/user.js:269-274 | for a document in the form the schema stores, the outcome is a success exactly when the gateway delivered |
| Dispatch.DispatchAll | Routes/user.js:208-291 | one outcome and one mail slot per target, and the collection keeps its size |
| Dispatch.DispatchPointwise | Routes/user.js:285-291 | the outcome and mail of target i, in payload order, are the ones it gets alone against the original collection, so one target's failure does not affect the others |
| Dispatch.DispatchFlags | Routes/user.js:269-274 | afterwards a member's `email_sent` is set exactly when it was set before or some target naming it was sent; no other field of any member changes |

## Left out

- Server bootstrap, routing, the database connection and environment
  configuration are I/O plumbing. `index.js`, `config/db.js` and
  `Routes/server.js` are not part of this model.
- The list route (`GET /`) only sorts by creation time. Generated ids and the
  `createdAt`/`updatedAt` timestamps are not modelled, so it is left out.
- `config/email.js` is not part of this model. The gateway is an oracle from
  the mail to delivered/rejected. The choice between an HTML and a text body is
  not modelled.
- `utils/excelHelper.js` wraps the `xlsx` library, which is not modelled. The
  upload takes the parsed rows as input. A buffer that does not parse would make
  the route answer with a server error, and that path is not modelled.
- The letter's body text is opaque. Only its opening lines are spelt out, around
  the name slot.
- The upload's summary sentence is not rendered. The response carries the three
  counts it is built from.
- HTTP status codes are reduced to response tags.
- Lowercasing is ASCII only. Full Unicode case mapping is not modelled.
- Request and cell values are `undefined`, `null` or strings. Numbers and dates
  from a sheet reach the model already rendered as text by `toString`. A truthy
  non-string email in an edit would throw in `trim`, and that is not modelled.
- The send route runs its targets concurrently. The model runs them in order, and
  `Dispatch.DispatchPointwise` proves that each outcome equals the one computed
  against the original collection. Races between duplicate ids in one payload
  are not modelled. A `Target` always has the three fields, so a payload entry
  that is `null` or not an object is not modelled. Such an entry makes both
  the lookup and its error handler throw, and the `allSettled` branch that
  reports `"unknown"` is left out with it.
- Database failures are not modelled. This includes a failing `findById`,
  `findOne` or `save` for a reason other than validation, such as a failing
  `save` after a delivered mail. A `data` field that is not an array is also not
  modelled.
- Dispatch.DispatchAll: its contract states only the lengths. The per-target
  outcomes, the payload emails and the flags are stated by
  `Dispatch.DispatchPointwise` and `Dispatch.DispatchFlags`.
- A `Draft` holds only the schema's fields. This models Mongoose dropping the
  fields of a request body that the schema does not declare.
- Schema.Validate: a `null` subject, body or `email_sent` is treated like a
  missing one and gets the `""`/`false` default. Mongoose applies defaults only
  to `undefined` and would store `null`. A stored message part or flag that is
  `null` is not modelled.

=== FILE: collection.dfy ===
/** The persisted member collection, as a sequence of documents. A
    document's id is its position; ids arriving in requests are parsed
    into `IdRef` first. */
module Collection {
  import opened Wrappers
  import opened Schema

  type Store = seq<Member>

  /** An id as a request supplies it: a well-formed object id, or a string
      that does not cast to one. */
  datatype IdRef = Ref(index: nat) | Malformed(raw: string)

  /** `findById(id)` finds a document. */
  predicate Resolves(store: Store, id: IdRef) {
    id.Ref? && id.index < |store|
  }

  /** `Member.findById(id)`: a malformed id throws a cast error, an unknown
      one yields `null`, and a known one yields its document. */
  function FindById(store: Store, id: IdRef): (r: Result<Option<Member>, string>)
    ensures r.Failure? <==> id.Malformed?
    ensures r.Failure? ==> r.error == CastErrorText(id.raw)
    ensures r.Success? && r.value.None? <==> id.Ref? && !Resolves(store, id)
    ensures r.Success? && r.value.Some? <==> Resolves(store, id)
    ensures r.Success? && r.value.Some? ==> r.value.value == store[id.index]
  {
    match id
    case Malformed(raw) => Failure(CastErrorText(raw))
    case Ref(n) => if n < |store| then Success(Some(store[n])) else Success(None)
  }

  /** The message of the cast error `findById` throws for a malformed id. */
  function CastErrorText(raw: string): string {
    "Cast to ObjectId failed for value \"" + raw + "\" (type string) at path \"_id\" for model \"Member\""
  }

  /** The email values present in the collection; `findOne({ email: e })`
      finds a document exactly when `e` is one of them. */
  function Emails(store: Store): set<string> {
    set k | 0 <= k < |store| && store[k].email.Some? :: store[k].email.value
  }

  /** `Member.findOne({ email: e })`: the first document whose email is
      `e`, found exactly when `e` is one of the stored emails. */
  function FindOne(store: Store, e: string): (r: Option<nat>)
    ensures r.Some? ==> r.value < |store| && store[r.value].email == Some(e)
    ensures r.Some? ==> forall j :: 0 <= j < r.value ==> store[j].email != Some(e)
    ensures r.None? <==> e !in Emails(store)
  {
    FindOneFrom(store, e, 0)
  }

  function FindOneFrom(store: Store, e: string, k: nat): (r: Option<nat>)
    requires k <= |store|
    requires forall j :: 0 <= j < k ==> store[j].email != Some(e)
    ensures r.Some? ==> k <= r.value < |store| && store[r.value].email == Some(e)
    ensures r.Some? ==> forall j :: 0 <= j < r.value ==> store[j].email != Some(e)
    ensures r.None? ==> forall j :: 0 <= j < |store| ==> store[j].email != Some(e)
    ensures r.None? <==> e !in Emails(store)
    decreases |store| - k
  {
    if k == |store| then None
    else if store[k].email == Some(e) then
      assert e in Emails(store);
      Some(k)
    else FindOneFrom(store, e, k + 1)
  }

  /** At most one document per email value. */
  predicate UniqueEmails(store: Store) {
    forall i, j :: 0 <= i < j < |store| && store[i].email.Some? ==> store[i].email != store[j].email
  }

  function EmailSet(m: Member): set<string> {
    if m.email.Some? then {m.email.value} else {}
  }

  /** `Model.create`: the new document is appended. */
  function Insert(store: Store, m: Member): (r: Store)
    ensures |r| == |store| + 1 && store <= r && r[|store|] == m
    ensures Emails(r) == Emails(store) + EmailSet(m)
    ensures UniqueEmails(store) && (m.email.Some? ==> m.email.value !in Emails(store)) ==> UniqueEmails(r)
  {
    var r := store + [m];
    assert forall k :: 0 <= k < |store| ==> r[k] == store[k];
    r
  }
}

=== FILE: crud.dfy ===
/** The single-document handlers: create a member, and edit one member's
    email and message. Neither checks the email against other documents. */
module Crud {
  import opened Wrappers
  import opened Js
  import opened Text
  import opened Schema
  import opened Collection

  datatype CreateResponse = Created(member: Member) | BadRequest(message: string)

  datatype CreateResult = CreateResult(response: CreateResponse, store: Store)

  /** The create route: the body is saved when the schema accepts it, and
      answered with the validation message otherwise. */
  function Create(store: Store, d: Draft): (r: CreateResult)
    ensures r.response.Created? <==>
      && d.name.Some? && Trim(d.name.value) != []
      && (d.email.None? || d.email.value == [] || EmailRegex(d.email.value))
    ensures r.response.Created? ==>
      && Validate(d) == Success(r.response.member)
      && Stored(r.response.member)
      && r.store == store + [r.response.member]
    ensures r.response.BadRequest? ==>
      && Validate(d).Failure?
      && r.response.message == ValidationMessage(Validate(d).error)
      && r.store == store
  {
    match Validate(d)
    case Success(m) => CreateResult(Created(m), Insert(store, m))
    case Failure(errs) => CreateResult(BadRequest(ValidationMessage(errs)), store)
  }

  /** The schema declares no unique index on `email`: creating a member
      whose email is already stored succeeds and leaves two documents with
      that email. */
  lemma CreateAllowsDuplicate(store: Store, d: Draft, k: nat)
    requires k < |store| && store[k].email == d.email
    requires d.email.Some? && Lower(d.email.value) == d.email.value
    requires Validate(d).Success?
    ensures Create(store, d).response.Created?
    ensures !UniqueEmails(Create(store, d).store)
  {
    var r := Create(store, d);
    assert r.store[k] == store[k];
    assert r.store[|store|].email == Some(Lower(d.email.value));
  }

  /** The fields of the edit request body. */
  datatype EditRequest = EditRequest(subject: Value, body: Value, email: Value)

  datatype EditResponse = Updated(member: Member) | NotFound | ServerError

  datatype EditResult = EditResult(response: EditResponse, store: Store)

  /** The conditional updates of the edit route. The email is replaced only
      by a truthy value, trimmed (and lowercased by the schema setter). The
      message is rebuilt only when the subject or the body is truthy; each
      part then takes the supplied value unless it is `undefined` or `null`,
      so an explicit empty string does overwrite. Nothing else changes. */
  function Merge(m: Member, req: EditRequest): (r: Member)
    ensures Truthy(req.email) ==> r.email == Some(Lower(Trim(req.email.s)))
    ensures !Truthy(req.email) ==> r.email == m.email
    ensures Truthy(req.subject) || Truthy(req.body) ==>
      && r.message.subject == (if req.subject.Str? then req.subject.s else m.message.subject)
      && r.message.body == (if req.body.Str? then req.body.s else m.message.body)
    ensures !(Truthy(req.subject) || Truthy(req.body)) ==> r.message == m.message
    ensures r.(email := m.email, message := m.message) == m
  {
    var withEmail :=
      if Truthy(req.email) then m.(email := Some(Lower(Trim(req.email.s)))) else m;
    if Truthy(req.subject) || Truthy(req.body) then
      withEmail.(message := Message(Coalesce(req.subject, m.message.subject), Coalesce(req.body, m.message.body)))
    else withEmail
  }

  /** The edit route. A malformed id makes `findById` throw (a server
      error); an unknown id is answered "not found"; otherwise the merged
      document is saved if the schema validators pass, replacing only that
      document. Every failure leaves the collection unchanged. */
  function Edit(store: Store, id: IdRef, req: EditRequest): (r: EditResult)
    ensures id.Malformed? ==> r == EditResult(ServerError, store)
    ensures id.Ref? && !Resolves(store, id) ==> r == EditResult(NotFound, store)
    ensures Resolves(store, id) ==>
      (r.response.Updated? <==> Errors(Merge(store[id.index], req)) == [])
    ensures Resolves(store, id) && Errors(Merge(store[id.index], req)) != [] ==>
      r == EditResult(ServerError, store)
    ensures r.response.Updated? ==>
      && Resolves(store, id)
      && r.response.member == Merge(store[id.index], req)
      && r.store == store[id.index := r.response.member]
    ensures !r.response.Updated? ==> r.store == store
  {
    match FindById(store, id)
    case Failure(_) => EditResult(ServerError, store)
    case Success(found) =>
      if found.None? then EditResult(NotFound, store)
      else
        var m := Merge(found.value, req);
        if Errors(m) == [] then EditResult(Updated(m), store[id.index := m])
        else EditResult(ServerError, store)
  }

  /** Supplying only a subject keeps the stored body, and the reverse; an
      empty subject beside a non-empty body overwrites the subject; an empty
      subject alone changes nothing. */
  lemma MergeMessageCases(m: Member, subject: string, body: string)
    ensures subject != [] ==>
      Merge(m, EditRequest(Str(subject), Undefined, Undefined)).message == Message(subject, m.message.body)
    ensures body != [] ==>
      Merge(m, EditRequest(Null, Str(body), Undefined)).message == Message(m.message.subject, body)
    ensures body != [] ==>
      Merge(m, EditRequest(Str(""), Str(body), Undefined)).message == Message("", body)
    ensures Merge(m, EditRequest(Str(""), Undefined, Undefined)) == m
  {
  }

  /** The edit route does not re-check uniqueness: setting a member's email
      to one another member already has is saved. */
  lemma EditAllowsDuplicate(store: Store, i: nat, j: nat, e: string)
    requires i < |store| && j < |store| && i != j
    requires store[j].email == Some(e) && e != [] && Trim(e) == e && Lower(e) == e
    requires EmailRegex(e) && store[i].name != []
    ensures Edit(store, Ref(i), EditRequest(Undefined, Undefined, Str(e))).response.Updated?
    ensures !UniqueEmails(Edit(store, Ref(i), EditRequest(Undefined, Undefined, Str(e))).store)
  {
    var m := Merge(store[i], EditRequest(Undefined, Undefined, Str(e)));
    assert m.email == Some(e) && m.name == store[i].name;
    assert Errors(m) == [] by {
      assert NameRequired !in Errors(m) && InvalidEmail !in Errors(m);
    }
    var r := Edit(store, Ref(i), EditRequest(Undefined, Undefined, Str(e)));
    assert r.store[i].email == Some(e) && r.store[j].email == Some(e);
    if i < j {
      assert !UniqueEmails(r.store);
    } else {
      assert r.store[j].email.Some? && r.store[j].email == r.store[i].email;
    }
  }
}

=== FILE: dispatch.dfy ===
/** The send route: for every target of the payload, look the member up,
    personalise and send the invitation through the mail gateway, and set
    the member's sent flag once the gateway accepted the mail. Targets are
    independent: each yields exactly one outcome, whatever the others do. */
module Dispatch {
  import opened Wrappers
  import opened Js
  import opened Schema
  import opened Collection
  import Invitation

  /** One entry of the payload: an id, a name and an email, as sent by the
      client (not re-read from the collection). */
  datatype Target = Target(id: IdRef, name: Value, email: Value)

  /** What is handed to the gateway. */
  datatype Mail = Mail(to: Value, subject: string, html: string)

  /** The gateway's answer: delivered, or an error with its message. */
  datatype Reply = Delivered | Rejected(message: string)

  datatype Status = Sent | Failed(reason: string)

  /** One entry of the response. */
  datatype Outcome = Outcome(email: Value, status: Status)

  /** The outcome of one target, the mail handed to the gateway for it (if
      any), and the collection afterwards. */
  datatype Attempt = Attempt(outcome: Outcome, mail: Option<Mail>, store: Store)

  const NotFoundReason: string := "Member not found"

  /** The message of the error `name.toString()` throws on a nullish name. */
  function NameErrorText(v: Value): string {
    if v.Null? then "Cannot read properties of null (reading 'toString')"
    else "Cannot read properties of undefined (reading 'toString')"
  }

  /** The invitation for a target whose name is `name`. */
  function InvitationFor(t: Target, name: string): Mail {
    Mail(t.email, Invitation.Subject, Invitation.MailBody(Invitation.FirstName(name)))
  }

  /** One target. Only a resolving id with a name reaches the gateway; the
      mail goes to the payload's email. Once the gateway delivered, the
      member is saved with its sent flag set; that save runs the schema
      validators, so a stored document they reject turns the delivered mail
      into a failed outcome with the validation message, and nothing is
      written. The sent flag of that member, and nothing else, changes
      exactly when the outcome is a success. */
  function DispatchOne(store: Store, t: Target, gateway: Mail -> Reply): (a: Attempt)
    ensures a.outcome.email == t.email
    ensures a.mail.Some? <==> Resolves(store, t.id) && t.name.Str?
    ensures a.mail.Some? ==>
      && a.mail.value == InvitationFor(t, t.name.s)
      && a.mail.value.to == t.email
      && a.mail.value.subject == Invitation.Subject
      && '\n' !in a.mail.value.html
    ensures t.id.Ref? && !Resolves(store, t.id) ==> a.outcome.status == Failed(NotFoundReason)
    ensures t.id.Malformed? ==> a.outcome.status == Failed(CastErrorText(t.id.raw))
    ensures Resolves(store, t.id) && !t.name.Str? ==> a.outcome.status == Failed(NameErrorText(t.name))
    ensures a.outcome.status.Sent? <==>
      a.mail.Some? && gateway(a.mail.value).Delivered? && Errors(store[t.id.index]) == []
    ensures a.mail.Some? && gateway(a.mail.value).Rejected? ==>
      a.outcome.status == Failed(gateway(a.mail.value).message)
    ensures a.mail.Some? && gateway(a.mail.value).Delivered? && Errors(store[t.id.index]) != [] ==>
      a.outcome.status == Failed(ValidationMessage(Errors(store[t.id.index])))
    ensures a.outcome.status.Sent? ==>
      a.store == store[t.id.index := store[t.id.index].(emailSent := true)]
    ensures !a.outcome.status.Sent? ==> a.store == store
  {
    match FindById(store, t.id)
    case Failure(msg) => Attempt(Outcome(t.email, Failed(msg)), None, store)
    case Success(found) =>
      if found.None? then Attempt(Outcome(t.email, Failed(NotFoundReason)), None, store)
      else if !t.name.Str? then Attempt(Outcome(t.email, Failed(NameErrorText(t.name))), None, store)
      else
        var mail := InvitationFor(t, t.name.s);
        match gateway(mail)
        case Rejected(msg) => Attempt(Outcome(t.email, Failed(msg)), Some(mail), store)
        case Delivered =>
          var saved := found.value.(emailSent := true);
          ErrorsIgnoreSentFlag(found.value, true);
          var errs := Errors(saved);
          if errs != [] then Attempt(Outcome(t.email, Failed(ValidationMessage(errs))), Some(mail), store)
          else Attempt(Outcome(t.email, Sent), Some(mail), store[t.id.index := saved])
  }

  /** A target's outcome and mail depend on the collection only through the
      set of ids that resolve and the validators' verdict on each document. */
  lemma DispatchOneIgnoresContents(s1: Store, s2: Store, t: Target, gateway: Mail -> Reply)
    requires |s1| == |s2|
    requires forall k :: 0 <= k < |s1| ==> Errors(s1[k]) == Errors(s2[k])
    ensures DispatchOne(s1, t, gateway).outcome == DispatchOne(s2, t, gateway).outcome
    ensures DispatchOne(s1, t, gateway).mail == DispatchOne(s2, t, gateway).mail
  {
  }

  /** For a document in stored form, as the create and upload routes leave
      it, the save after delivery cannot fail: the outcome is a success
      exactly when the gateway delivered. */
  lemma StoredDocumentSaves(store: Store, t: Target, gateway: Mail -> Reply)
    requires Resolves(store, t.id) && Stored(store[t.id.index])
    ensures var a := DispatchOne(store, t, gateway);
      a.outcome.status.Sent? <==> a.mail.Some? && gateway(a.mail.value).Delivered?
  {
    var m := store[t.id.index];
    assert NameRequired !in Errors(m) && InvalidEmail !in Errors(m);
  }

  /** One target changes at most a sent flag, so the validators' verdict on
      every document stays as it was. */
  lemma StepKeepsVerdicts(store: Store, t: Target, gateway: Mail -> Reply)
    ensures var a := DispatchOne(store, t, gateway);
      |a.store| == |store| && forall k :: 0 <= k < |store| ==> Errors(a.store[k]) == Errors(store[k])
  {
    var a := DispatchOne(store, t, gateway);
    if a.outcome.status.Sent? {
      var i := t.id.index;
      assert a.store == store[i := store[i].(emailSent := true)];
      forall k | 0 <= k < |store| ensures Errors(a.store[k]) == Errors(store[k]) {
        if k == i { ErrorsIgnoreSentFlag(store[i], true); }
      }
    }
  }

  /** The response entries, the mails handed to the gateway (one slot per
      target), and the collection afterwards. */
  datatype Report = Report(outcomes: seq<Outcome>, mails: seq<Option<Mail>>, store: Store)

  /** The targets in payload order, one after the other. */
  function DispatchAll(store: Store, ts: seq<Target>, gateway: Mail -> Reply): (r: Report)
    ensures |r.outcomes| == |ts| && |r.mails| == |ts| && |r.store| == |store|
    decreases |ts|
  {
    if ts == [] then Report([], [], store)
    else
      var a := DispatchOne(store, ts[0], gateway);
      var rest := DispatchAll(a.store, ts[1..], gateway);
      var outcomes := [a.outcome] + rest.outcomes;
      Report(outcomes, [a.mail] + rest.mails, rest.store)
  }

  lemma DispatchAllCons(store: Store, ts: seq<Target>, gateway: Mail -> Reply)
    requires ts != []
    ensures var a := DispatchOne(store, ts[0], gateway);
      var rest := DispatchAll(a.store, ts[1..], gateway);
      DispatchAll(store, ts, gateway) == Report([a.outcome] + rest.outcomes, [a.mail] + rest.mails, rest.store)
  {
  }

  /** Running the targets one after the other gives every target the outcome
      and the mail it gets when run alone against the original collection:
      the sequential model agrees with the concurrent route, and no target's
      failure affects another's outcome. */
  lemma {:induction false} DispatchPointwise(store: Store, ts: seq<Target>, gateway: Mail -> Reply, i: nat)
    requires i < |ts|
    ensures DispatchAll(store, ts, gateway).outcomes[i] == DispatchOne(store, ts[i], gateway).outcome
    ensures DispatchAll(store, ts, gateway).outcomes[i].email == ts[i].email
    ensures DispatchAll(store, ts, gateway).mails[i] == DispatchOne(store, ts[i], gateway).mail
    decreases i
  {
    var a := DispatchOne(store, ts[0], gateway);
    var rest := DispatchAll(a.store, ts[1..], gateway);
    DispatchAllCons(store, ts, gateway);
    if i > 0 {
      DispatchPointwise(a.store, ts[1..], gateway, i - 1);
      assert ts[1..][i - 1] == ts[i];
      StepKeepsVerdicts(store, ts[0], gateway);
      DispatchOneIgnoresContents(a.store, store, ts[i], gateway);
    }
  }

  /** Some target with id `k` got a `Sent` outcome. */
  ghost predicate SentTo(ts: seq<Target>, outcomes: seq<Outcome>, k: nat) {
    exists i :: 0 <= i < |ts| && i < |outcomes| && ts[i].id == Ref(k) && outcomes[i].status.Sent?
  }

  lemma StepFlag(store: Store, t: Target, gateway: Mail -> Reply, k: nat)
    requires k < |store|
    ensures var a := DispatchOne(store, t, gateway);
      a.store[k] == store[k].(emailSent := store[k].emailSent || (t.id == Ref(k) && a.outcome.status.Sent?))
  {
  }

  lemma SentToCons(ts: seq<Target>, o: Outcome, os: seq<Outcome>, k: nat)
    requires |ts| > 0
    ensures SentTo(ts, [o] + os, k) <==> (ts[0].id == Ref(k) && o.status.Sent?) || SentTo(ts[1..], os, k)
  {
    var all := [o] + os;
    if SentTo(ts, all, k) {
      var i :| 0 <= i < |ts| && i < |all| && ts[i].id == Ref(k) && all[i].status.Sent?;
      if i > 0 {
        assert ts[1..][i - 1] == ts[i] && os[i - 1] == all[i];
      }
    }
    if SentTo(ts[1..], os, k) {
      var i :| 0 <= i < |ts[1..]| && i < |os| && ts[1..][i].id == Ref(k) && os[i].status.Sent?;
      assert ts[i + 1] == ts[1..][i] && all[i + 1] == os[i];
    }
  }

  /** After the route, a member's sent flag is set exactly when it was set
      before or some target naming it was sent; no other field changes. */
  lemma {:induction false} DispatchFlags(store: Store, ts: seq<Target>, gateway: Mail -> Reply, k: nat)
    requires k < |store|
    ensures var r := DispatchAll(store, ts, gateway);
      r.store[k] == store[k].(emailSent := store[k].emailSent || SentTo(ts, r.outcomes, k))
    decreases |ts|
  {
    var r := DispatchAll(store, ts, gateway);
    if ts == [] {
      assert !SentTo(ts, r.outcomes, k);
    } else {
      var a := DispatchOne(store, ts[0], gateway);
      var rest := DispatchAll(a.store, ts[1..], gateway);
      assert r.outcomes == [a.outcome] + rest.outcomes && r.store == rest.store;
      DispatchFlags(a.store, ts[1..], gateway, k);
      StepFlag(store, ts[0], gateway, k);
      SentToCons(ts, a.outcome, rest.outcomes, k);
    }
  }
}

=== FILE: ingest.dfy ===
/** Spreadsheet upload: rows are mapped to candidate records, then checked
    one at a time, in order, against the collection; a row is skipped when
    its email is missing or already present, and inserted otherwise. */
module Ingest {
  import opened Wrappers
  import opened Js
  import opened Text
  import opened Schema
  import opened Collection
  import Invitation

  /** A parsed spreadsheet row: column header to cell value. */
  type Row = map<string, Value>

  /** Destructuring with a default, `const { key = fallback } = row`: the
      fallback applies when the key is absent or `undefined`. */
  function Pick(row: Row, key: string, fallback: Value): (v: Value)
    ensures key in row && !row[key].Undefined? ==> v == row[key]
    ensures key !in row || row[key].Undefined? ==> v == fallback
    ensures key in row && row[key].Null? ==> v.Null?
    ensures !fallback.Undefined? ==> !v.Undefined?
  {
    if key in row && !row[key].Undefined? then row[key] else fallback
  }

  /** Optional chaining `v?.toString().trim()`. */
  function TrimmedText(v: Value): Option<string> {
    if v.Str? then Some(Trim(v.s)) else None
  }

  /** How one field of a row is extracted: an absent or `undefined` cell
      takes the (already trimmed) default, a `null` one stays absent, and
      any other value becomes its trimmed text. */
  ghost predicate ExtractedAs(row: Row, key: string, fallback: Option<string>, out: Option<string>) {
    if key !in row || row[key].Undefined? then out == fallback
    else if row[key].Null? then out.None?
    else out == Some(Trim(row[key].s))
  }

  /** The record built from a row before it is checked. */
  datatype Candidate = Candidate(
    name: Option<string>,
    email: Option<string>,
    state: Option<string>,
    number: Option<string>,
    field: Option<string>,
    licensedBy: Option<string>,
    licenseNumber: Option<string>,
    message: Message)

  /** The `data.map` callback of the upload handler. */
  function Extract(row: Row): (c: Candidate)
    ensures ExtractedAs(row, "name", None, c.name)
    ensures ExtractedAs(row, "email", None, c.email)
    ensures ExtractedAs(row, "number", Some(""), c.number)
    ensures ExtractedAs(row, "field", Some("N/A"), c.field)
    ensures ExtractedAs(row, "state", Some(""), c.state)
    ensures ExtractedAs(row, "licensedBy", Some(""), c.licensedBy)
    ensures ExtractedAs(row, "licenseNumber", Some(""), c.licenseNumber)
    ensures c.message.subject == Invitation.Subject
    ensures c.message.body == Invitation.StoredLetter(if "name" in row then Interpolate(row["name"]) else "undefined")
  {
    TrimOfTrimmed("");
    TrimOfTrimmed("N/A");
    var rawName := Pick(row, "name", Undefined);
    Candidate(
      TrimmedText(rawName),
      TrimmedText(Pick(row, "email", Undefined)),
      TrimmedText(Pick(row, "state", Str(""))),
      TrimmedText(Pick(row, "number", Str(""))),
      TrimmedText(Pick(row, "field", Str("N/A"))),
      TrimmedText(Pick(row, "licensedBy", Str(""))),
      TrimmedText(Pick(row, "licenseNumber", Str(""))),
      Message(Invitation.Subject, Invitation.StoredLetter(Interpolate(rawName))))
  }

  /** The email a candidate is looked up and inserted under: trimmed and
      lowercased, or empty when the candidate has none. */
  function EmailKey(c: Candidate): (k: string)
    ensures k == [] <==> c.email.None? || Trim(c.email.value) == []
    ensures k != [] ==> k == Lower(Trim(c.email.value))
    ensures Lower(k) == k
  {
    if c.email.Some? && c.email.value != [] then
      LowerIdempotent(Trim(c.email.value));
      Lower(Trim(c.email.value))
    else ""
  }

  function KeySet(c: Candidate): set<string> {
    if EmailKey(c) != [] then {EmailKey(c)} else {}
  }

  /** The object spread `{ ...m, email }` handed to `Member.create`. */
  function ToDraft(c: Candidate, email: string): (d: Draft)
    ensures d.email == Some(email)
    ensures Lower(email) == email && Validate(d).Success? ==> Validate(d).value.email == Some(email)
    ensures Validate(d).Success? ==> Validate(d).value.message == c.message && !Validate(d).value.emailSent
    ensures Validate(d).Success? ==>
      var m := Validate(d).value;
      && c.name.Some? && m.name == Trim(c.name.value)
      && m.state == TrimOpt(c.state)
      && m.number == c.number
      && m.field == c.field
      && m.licensedBy == TrimOpt(c.licensedBy)
      && m.licenseNumber == TrimOpt(c.licenseNumber)
    ensures Validate(d).Success? <==>
      && c.name.Some? && Trim(c.name.value) != []
      && (email == [] || EmailRegex(email))
  {
    Draft(c.name, Some(email), c.state, c.number, c.field, c.licensedBy,
          c.licenseNumber, Some(c.message.subject), Some(c.message.body), None)
  }

  datatype SkipReason = MissingEmail | EmailExists

  /** The `reason` attached to a row pushed onto `skipped`. The route's
      answer reports only how many rows were skipped, not why. */
  function ReasonText(r: SkipReason): string {
    match r
    case MissingEmail => "Missing email"
    case EmailExists => "Email already exists"
  }

  datatype RowOutcome = Inserted(member: Member) | Skipped(candidate: Candidate, reason: SkipReason)

  /** One iteration of the upload loop: the loop goes on with the new
      collection and the row's outcome, or `Member.create` throws. */
  datatype Step = Continue(store: Store, outcome: RowOutcome) | Abort(errors: seq<FieldError>)

  /** A row without an email is skipped without consulting the collection;
      a row whose email is present is skipped and leaves the collection as
      it was; any other row is inserted under its normalised email, unless
      the schema rejects it. */
  function IngestOne(store: Store, c: Candidate): (s: Step)
    ensures EmailKey(c) == [] ==> s == Continue(store, Skipped(c, MissingEmail))
    ensures EmailKey(c) != [] && EmailKey(c) in Emails(store) ==> s == Continue(store, Skipped(c, EmailExists))
    ensures EmailKey(c) != [] && EmailKey(c) !in Emails(store) && s.Continue? ==>
      && s.outcome.Inserted?
      && s.outcome.member.email == Some(EmailKey(c))
      && s.store == store + [s.outcome.member]
    ensures s.Continue? ==> Emails(s.store) == Emails(store) + KeySet(c)
    ensures s.Continue? && UniqueEmails(store) ==> UniqueEmails(s.store)
    ensures s.Continue? ==> s.store == store + (if s.outcome.Inserted? then [s.outcome.member] else [])
  {
    var email := EmailKey(c);
    if email == [] then Continue(store, Skipped(c, MissingEmail))
    else if FindOne(store, email).Some? then Continue(store, Skipped(c, EmailExists))
    else
      match Validate(ToDraft(c, email))
      case Failure(errs) => Abort(errs)
      case Success(m) => Continue(Insert(store, m), Inserted(m))
  }

  /** A row with a new email aborts the loop exactly when the schema rejects
      its record, and is otherwise inserted as the schema normalised it. */
  lemma InsertionValidated(store: Store, c: Candidate)
    requires EmailKey(c) != [] && EmailKey(c) !in Emails(store)
    ensures var s := IngestOne(store, c);
      && (s.Abort? <==> Validate(ToDraft(c, EmailKey(c))).Failure?)
      && (s.Abort? ==> Validate(ToDraft(c, EmailKey(c))) == Failure(s.errors))
      && (s.Continue? ==> Validate(ToDraft(c, EmailKey(c))) == Success(s.outcome.member))
  {
  }

  /** The outcome of the whole loop: the collection it leaves behind, the
      outcomes of the rows it got through, and the error that stopped it. */
  datatype Batch = Batch(store: Store, outcomes: seq<RowOutcome>, failure: Option<seq<FieldError>>)

  function CountInserted(os: seq<RowOutcome>): nat {
    if os == [] then 0 else (if os[0].Inserted? then 1 else 0) + CountInserted(os[1..])
  }

  function CountSkipped(os: seq<RowOutcome>): nat {
    if os == [] then 0 else (if os[0].Skipped? then 1 else 0) + CountSkipped(os[1..])
  }

  /** The documents the insertions created, in row order. */
  function InsertedMembers(os: seq<RowOutcome>): seq<Member> {
    if os == [] then []
    else (if os[0].Inserted? then [os[0].member] else []) + InsertedMembers(os[1..])
  }

  /** Every outcome is an insertion or a skip. */
  lemma {:induction false} CountsPartition(os: seq<RowOutcome>)
    ensures CountInserted(os) + CountSkipped(os) == |os|
  {
    if os != [] {
      CountsPartition(os[1..]);
    }
  }

  /** The upload loop over the candidates, in order. A completed loop has
      one outcome per row; an aborted one stops at the failing row and keeps
      what it inserted before. The collection only grows, by one document
      per insertion. */
  function IngestAll(store: Store, cs: seq<Candidate>): (b: Batch)
    ensures b.failure.None? ==> |b.outcomes| == |cs|
    ensures b.failure.Some? ==> |b.outcomes| < |cs|
    ensures store <= b.store
    ensures |b.store| == |store| + CountInserted(b.outcomes)
    decreases |cs|
  {
    if cs == [] then Batch(store, [], None)
    else
      match IngestOne(store, cs[0])
      case Abort(errs) => Batch(store, [], Some(errs))
      case Continue(next, o) =>
        var rest := IngestAll(next, cs[1..]);
        assert ([o] + rest.outcomes)[1..] == rest.outcomes;
        Batch(rest.store, [o] + rest.outcomes, rest.failure)
  }

  /** What the loop leaves behind is the original collection followed by
      the documents it inserted, in row order: earlier documents are never
      touched, also when the loop aborts. */
  lemma {:induction false} IngestStore(store: Store, cs: seq<Candidate>)
    ensures IngestAll(store, cs).store == store + InsertedMembers(IngestAll(store, cs).outcomes)
    decreases |cs|
  {
    var b := IngestAll(store, cs);
    if cs == [] {
      assert b == Batch(store, [], None);
      assert store + [] == store;
    } else {
      var step := IngestOne(store, cs[0]);
      if step.Abort? {
        assert b == Batch(store, [], Some(step.errors));
        assert store + [] == store;
      } else {
        var o := step.outcome;
        var rest := IngestAll(step.store, cs[1..]);
        IngestStore(step.store, cs[1..]);
        var os := [o] + rest.outcomes;
        assert b == Batch(rest.store, os, rest.failure);
        assert os[0] == o && os[1..] == rest.outcomes;
        var mine := if o.Inserted? then [o.member] else [];
        var later := InsertedMembers(rest.outcomes);
        assert InsertedMembers(os) == mine + later;
        assert step.store == store + mine;
        assert rest.store == step.store + later;
        AppendAssoc(store, mine, later);
      }
    }
  }

  lemma AppendAssoc<T>(a: seq<T>, b: seq<T>, c: seq<T>)
    ensures a + b + c == a + (b + c)
  {
  }

  /** The non-empty values of `key` over a sequence. */
  function KeysBy<T>(key: T -> string, xs: seq<T>): set<string> {
    if xs == [] then {} else (if key(xs[0]) != [] then {key(xs[0])} else {}) + KeysBy(key, xs[1..])
  }

  lemma KeysByCons<T>(key: T -> string, x: T, xs: seq<T>)
    ensures KeysBy(key, [x] + xs) == (if key(x) != [] then {key(x)} else {}) + KeysBy(key, xs)
  {
    assert ([x] + xs)[0] == x && ([x] + xs)[1..] == xs;
  }

  lemma {:induction false} KeysByHas<T>(key: T -> string, xs: seq<T>, i: nat)
    requires i < |xs| && key(xs[i]) != []
    ensures key(xs[i]) in KeysBy(key, xs)
    decreases i
  {
    if i > 0 {
      assert xs[1..][i - 1] == xs[i];
      KeysByHas(key, xs[1..], i - 1);
    }
  }

  /** The normalised emails of a sequence of candidates. */
  function Keys(cs: seq<Candidate>): set<string> {
    KeysBy(EmailKey, cs)
  }

  lemma KeysCons(c: Candidate, cs: seq<Candidate>)
    ensures Keys([c] + cs) == KeySet(c) + Keys(cs)
  {
    KeysByCons(EmailKey, c, cs);
  }

  /** Every non-empty key of a candidate is among the keys. */
  lemma KeysHas(cs: seq<Candidate>, i: nat)
    requires i < |cs| && EmailKey(cs[i]) != []
    ensures EmailKey(cs[i]) in Keys(cs)
  {
    KeysByHas(EmailKey, cs, i);
  }

  lemma PrefixCons(cs: seq<Candidate>, n: nat)
    requires 0 < |cs| && n < |cs|
    ensures cs[..n + 1] == [cs[0]] + cs[1..][..n]
  {
  }

  /** After the loop the collection holds exactly the emails it held before
      plus the normalised emails of the rows the loop got through, and it
      never holds two documents with the same email unless it already did. */
  lemma {:induction false} IngestEmails(store: Store, cs: seq<Candidate>)
    ensures Emails(IngestAll(store, cs).store) == Emails(store) + Keys(cs[..|IngestAll(store, cs).outcomes|])
    ensures UniqueEmails(store) ==> UniqueEmails(IngestAll(store, cs).store)
    decreases |cs|
  {
    if cs == [] {
      assert cs[..0] == [];
    } else {
      match IngestOne(store, cs[0])
      case Abort(errs) =>
        assert cs[..0] == [];
      case Continue(next, o) =>
        var rest := IngestAll(next, cs[1..]);
        var n := |rest.outcomes|;
        var b := IngestAll(store, cs);
        assert b.store == rest.store && |b.outcomes| == n + 1;
        IngestEmails(next, cs[1..]);
        PrefixCons(cs, n);
        KeysCons(cs[0], cs[1..][..n]);
        UnionRegroup(Emails(store), KeySet(cs[0]), Keys(cs[1..][..n]), Emails(next), Keys(cs[..n + 1]));
    }
  }

  /** The outcome a row gets when the emails `seen` are present. */
  ghost predicate OutcomeRule(o: RowOutcome, c: Candidate, seen: set<string>) {
    var k := EmailKey(c);
    && (k == [] ==> o == Skipped(c, MissingEmail))
    && (k != [] && k in seen ==> o == Skipped(c, EmailExists))
    && (k != [] && k !in seen ==>
          o.Inserted? && o.member.email == Some(k) && Validate(ToDraft(c, k)) == Success(o.member))
  }

  lemma StepRule(store: Store, c: Candidate)
    requires IngestOne(store, c).Continue?
    ensures OutcomeRule(IngestOne(store, c).outcome, c, Emails(store))
  {
    if EmailKey(c) != [] && EmailKey(c) !in Emails(store) {
      InsertionValidated(store, c);
    }
  }

  lemma SeenAfterStep(store: Store, next: Store, cs: seq<Candidate>, i: nat)
    requires 0 < i <= |cs|
    requires Emails(next) == Emails(store) + KeySet(cs[0])
    ensures Emails(next) + Keys(cs[1..][..i - 1]) == Emails(store) + Keys(cs[..i])
  {
    KeysOfPrefix(cs, i);
    UnionRegroup(Emails(store), KeySet(cs[0]), Keys(cs[1..][..i - 1]), Emails(next), Keys(cs[..i]));
  }

  lemma KeysOfPrefix(cs: seq<Candidate>, i: nat)
    requires 0 < i <= |cs|
    ensures Keys(cs[..i]) == KeySet(cs[0]) + Keys(cs[1..][..i - 1])
  {
    var whole, later := cs[..i], cs[1..][..i - 1];
    PrefixCons(cs, i - 1);
    assert whole == [cs[0]] + later;
    KeysCons(cs[0], later);
  }

  lemma UnionRegroup(a: set<string>, b: set<string>, c: set<string>, ab: set<string>, bc: set<string>)
    requires ab == a + b && bc == b + c
    ensures ab + c == a + bc
  {
  }

  /** The outcome of row `i` is decided by its own normalised email and by
      the emails present when the loop reaches it: those of the original
      collection and of every earlier row. */
  lemma {:induction false} RowOutcomeIs(store: Store, cs: seq<Candidate>, i: nat)
    requires i < |IngestAll(store, cs).outcomes|
    ensures OutcomeRule(IngestAll(store, cs).outcomes[i], cs[i], Emails(store) + Keys(cs[..i]))
    decreases i
  {
    var step := IngestOne(store, cs[0]);
    if step.Abort? {
      assert false;
    } else {
      var rest := IngestAll(step.store, cs[1..]);
      assert IngestAll(store, cs).outcomes == [step.outcome] + rest.outcomes;
      if i == 0 {
        assert cs[..0] == [];
        StepRule(store, cs[0]);
      } else {
        RowOutcomeIs(step.store, cs[1..], i - 1);
        assert cs[1..][i - 1] == cs[i];
        SeenAfterStep(store, step.store, cs, i);
      }
    }
  }

  /** An aborted loop stopped at the first row that reached `Member.create`
      and that the schema rejected: its email was new, and the error the
      loop reports is that row's validation error. */
  lemma {:induction false} AbortedAt(store: Store, cs: seq<Candidate>)
    requires IngestAll(store, cs).failure.Some?
    ensures var b := IngestAll(store, cs);
      var n := |b.outcomes|;
      var k := EmailKey(cs[n]);
      && k != [] && k !in Emails(store) + Keys(cs[..n])
      && Validate(ToDraft(cs[n], k)) == Failure(b.failure.value)
    decreases |cs|
  {
    var step := IngestOne(store, cs[0]);
    if step.Abort? {
      assert cs[..0] == [];
      InsertionValidated(store, cs[0]);
    } else {
      var rest := IngestAll(step.store, cs[1..]);
      var n := |rest.outcomes|;
      assert IngestAll(store, cs).outcomes == [step.outcome] + rest.outcomes;
      AbortedAt(step.store, cs[1..]);
      assert cs[1..][n] == cs[n + 1];
      SeenAfterStep(store, step.store, cs, n + 1);
    }
  }

  /** Rows are checked in order, so a row repeating the normalised email of
      an earlier row of the same upload is skipped as a duplicate. */
  lemma DuplicateInBatchSkipped(store: Store, cs: seq<Candidate>, i: nat, j: nat)
    requires i < j < |IngestAll(store, cs).outcomes|
    requires EmailKey(cs[i]) != [] && EmailKey(cs[i]) == EmailKey(cs[j])
    ensures IngestAll(store, cs).outcomes[j] == Skipped(cs[j], EmailExists)
  {
    assert cs[..j][i] == cs[i];
    KeysHas(cs[..j], i);
    RowOutcomeIs(store, cs, j);
  }

  /** The JSON answer of the upload route. */
  datatype UploadResponse =
    | NoFile
    | EmptySheet
    | Summary(inserted: nat, skipped: nat, count: nat)
    | ServerError(message: string)

  datatype UploadResult = UploadResult(response: UploadResponse, store: Store)

  /** The whole `data.map` over the parsed rows. */
  function ExtractAll(rows: seq<Row>): (cs: seq<Candidate>)
    ensures |cs| == |rows|
    ensures forall i :: 0 <= i < |rows| ==> cs[i] == Extract(rows[i])
  {
    seq(|rows|, i requires 0 <= i < |rows| => Extract(rows[i]))
  }

  /** The upload route, from the parsed rows (`None` when no file came with
      the request). Nothing is read or written for a missing file or an
      empty sheet; a completed upload reports counts that add up to the
      number of rows, and the collection grew by the inserted count; a
      failed insertion answers with the validation message and keeps the
      documents inserted before it. */
  function Upload(store: Store, file: Option<seq<Row>>): (r: UploadResult)
    ensures file.None? ==> r == UploadResult(NoFile, store)
    ensures file == Some([]) ==> r == UploadResult(EmptySheet, store)
    ensures store <= r.store
    ensures r.response.Summary? ==>
      && file.Some?
      && r.response.inserted + r.response.skipped == r.response.count == |file.value|
      && |r.store| == |store| + r.response.inserted
    ensures r.response.ServerError? ==>
      && file.Some?
      && |r.store| < |store| + |file.value|
    ensures UniqueEmails(store) ==> UniqueEmails(r.store)
    ensures file.Some? && file.value != [] ==>
      var b := IngestAll(store, ExtractAll(file.value));
      && r.store == b.store
      && (b.failure.None? ==> r.response.Summary? && r.response.inserted == CountInserted(b.outcomes))
      && (b.failure.Some? ==> r.response == ServerError(ValidationMessage(b.failure.value)))
  {
    if file.None? then UploadResult(NoFile, store)
    else if file.value == [] then UploadResult(EmptySheet, store)
    else
      var rows := file.value;
      var cs := ExtractAll(rows);
      var b := IngestAll(store, cs);
      IngestEmails(store, cs);
      CountsPartition(b.outcomes);
      if b.failure.Some? then
        UploadResult(ServerError(ValidationMessage(b.failure.value)), b.store)
      else
        UploadResult(Summary(CountInserted(b.outcomes), CountSkipped(b.outcomes), |cs|), b.store)
  }
}

=== FILE: invitation.dfy ===
/** The fixed invitation letter. Only its opening lines are spelt out: the
    rest of the text is an opaque constant whose only role is to follow the
    name slot. */
module Invitation {
  import opened Text

  const Subject: string := "Invitation to conduct dispute resolution cases"

  /** The letter text after the name, as the upload handler writes it (its
      continuation lines are indented). */
  const StoredTail: string :=
    ",\n\n            Re: Invitation to conduct dispute resolution cases\n\n            "

  /** The letter text after the name, as the send handler writes it. */
  const MailTail: string :=
    ",\n\nRe: Invitation to conduct dispute resolution cases\n\n"

  /** The letter attached to a row at upload: `Dear ${name},` with the raw
      cell value interpolated. */
  function StoredLetter(nameSlot: string): string {
    "Dear " + nameSlot + StoredTail
  }

  /** The letter rendered for a send, before newlines become `<br>`. */
  function MailLetter(firstName: string): string {
    "Dear " + firstName + MailTail
  }

  /** `name.toString().trim().split(' ')[0]`: the text of the trimmed name
      before its first U+0020 space. It is empty only for a blank name. */
  function FirstName(name: string): (r: string)
    ensures r <= Trim(name) && ' ' !in r
    ensures |r| < |Trim(name)| ==> Trim(name)[|r|] == ' '
    ensures r == [] <==> Trim(name) == []
  {
    var t := Trim(name);
    assert t != [] ==> t[0] != ' ';
    BeforeFirstSpace(t)
  }

  /** The HTML body of a send: the personalised letter with every newline
      turned into `<br>`. */
  function MailBody(firstName: string): (r: string)
    ensures '\n' !in r
  {
    BreakLines(MailLetter(firstName))
  }

  /** The body opens with the greeting and the first name, the name passed
      through the newline replacement on its own. */
  lemma MailBodyLayout(firstName: string)
    ensures MailBody(firstName) == "Dear " + BreakLines(firstName) + BreakLines(MailTail)
  {
    BreaksAround("Dear ", firstName, MailTail);
  }

  lemma BreaksAround(greeting: string, firstName: string, tail: string)
    requires '\n' !in greeting
    ensures BreakLines(greeting + firstName + tail) == greeting + BreakLines(firstName) + BreakLines(tail)
  {
    var rest := firstName + tail;
    assert greeting + firstName + tail == greeting + rest;
    BreakLinesAppend(greeting, rest);
    assert BreakLines(greeting) == greeting;
    BreakLinesAppend(firstName, tail);
    var x, y := BreakLines(firstName), BreakLines(tail);
    assert greeting + (x + y) == greeting + x + y;
  }
}

=== FILE: js.dfy ===
/** The few JavaScript value semantics the route handlers depend on. */
module Js {

  /** A request or spreadsheet value as the handlers see it. Numbers and
      other scalars reach the model already rendered as their string. */
  datatype Value = Undefined | Null | Str(s: string)

  /** JavaScript truthiness of a value: only a non-empty string is truthy. */
  predicate Truthy(v: Value) {
    v.Str? && |v.s| > 0
  }

  /** The nullish-coalescing `v ?? fallback`: only `undefined` and `null` fall back. */
  function Coalesce(v: Value, fallback: string): string {
    if v.Str? then v.s else fallback
  }

  /** `v ?? fallback` and the truthiness test `v ? v : fallback` pick the
      same string except for an empty string with a non-empty fallback:
      `??` keeps the empty string, truthiness falls back. */
  lemma NullishVersusTruthy(v: Value, fallback: string)
    ensures Coalesce(v, fallback) == (if Truthy(v) then v.s else fallback)
      <==> v != Str("") || fallback == ""
    ensures !v.Str? ==> Coalesce(v, fallback) == fallback && !Truthy(v)
  {
  }

  /** What a template literal `${v}` produces for `v`. */
  function Interpolate(v: Value): string {
    match v
    case Undefined => "undefined"
    case Null => "null"
    case Str(s) => s
  }
}

=== FILE: schema.dfy ===
/** The member schema: its field rules read as a normalise-then-validate
    function over a draft document. */
module Schema {
  import opened Wrappers
  import opened Text

  datatype Message = Message(subject: string, body: string)

  /** A member document as stored. Absent optional fields are `None`. */
  datatype Member = Member(
    name: string,
    email: Option<string>,
    state: Option<string>,
    number: Option<string>,
    field: Option<string>,
    licensedBy: Option<string>,
    licenseNumber: Option<string>,
    message: Message,
    emailSent: bool)

  /** The fields handed to the model constructor, before setters and
      defaults. `None` stands for a field that is absent or `null`. */
  datatype Draft = Draft(
    name: Option<string>,
    email: Option<string>,
    state: Option<string>,
    number: Option<string>,
    field: Option<string>,
    licensedBy: Option<string>,
    licenseNumber: Option<string>,
    subject: Option<string>,
    body: Option<string>,
    emailSent: Option<bool>)

  /** The two validators the schema declares. */
  datatype FieldError = NameRequired | InvalidEmail

  function ErrorText(e: FieldError): string {
    match e
    case NameRequired => "name: Path `name` is required."
    case InvalidEmail => "email: Please enter a valid email"
  }

  /** The message of the validation error a failing save throws. */
  function ValidationMessage(errs: seq<FieldError>): string {
    "Member validation failed: " + JoinErrors(errs)
  }

  function JoinErrors(errs: seq<FieldError>): string {
    if errs == [] then ""
    else if |errs| == 1 then ErrorText(errs[0])
    else ErrorText(errs[0]) + ", " + JoinErrors(errs[1..])
  }

  // ---------------------------------------------------------------- email

  /** The language of `/^\S+@\S+\.\S+$/`: no space character anywhere, and an
      `@` after at least one character, followed (with at least one
      character between) by a `.` that is followed by at least one character. */
  ghost predicate EmailRegex(s: string) {
    && NoSpace(s)
    && exists a, d :: 1 <= a && a + 2 <= d && d + 2 <= |s| && s[a] == '@' && s[d] == '.'
  }

  /** The first index `i >= k` with `s[i] == c`. */
  function FirstIndexFrom(s: string, c: char, k: nat): (r: Option<nat>)
    requires k <= |s|
    ensures r.Some? ==> k <= r.value < |s| && s[r.value] == c
    ensures forall i :: k <= i < |s| && (r.None? || i < r.value) ==> s[i] != c
    decreases |s| - k
  {
    if k == |s| then None
    else if s[k] == c then Some(k)
    else FirstIndexFrom(s, c, k + 1)
  }

  /** The last index `i < k` with `s[i] == c`. */
  function LastIndexBelow(s: string, c: char, k: nat): (r: Option<nat>)
    requires k <= |s|
    ensures r.Some? ==> r.value < k && s[r.value] == c
    ensures forall i :: 0 <= i < k && (r.None? || r.value < i) ==> s[i] != c
  {
    if k == 0 then None
    else if s[k - 1] == c then Some(k - 1)
    else LastIndexBelow(s, c, k - 1)
  }

  /** A single-pass scan for the email pattern: the leftmost usable `@`
      and the rightmost usable `.` leave the most room between them. */
  predicate EmailScan(s: string) {
    && NoSpace(s)
    && |s| >= 1
    && var at := FirstIndexFrom(s, '@', 1);
       var dot := LastIndexBelow(s, '.', |s| - 1);
       at.Some? && dot.Some? && at.value + 2 <= dot.value
  }

  lemma EmailPatternIsRegex(s: string)
    ensures EmailScan(s) <==> EmailRegex(s)
  {
    if EmailScan(s) {
      var a := FirstIndexFrom(s, '@', 1).value;
      var d := LastIndexBelow(s, '.', |s| - 1).value;
      assert 1 <= a && a + 2 <= d && d + 2 <= |s| && s[a] == '@' && s[d] == '.';
    }
    if EmailRegex(s) {
      var a, d :| 1 <= a && a + 2 <= d && d + 2 <= |s| && s[a] == '@' && s[d] == '.';
      var at := FirstIndexFrom(s, '@', 1);
      var dot := LastIndexBelow(s, '.', |s| - 1);
      assert at.Some? && at.value <= a;
      assert dot.Some? && d <= dot.value;
    }
  }

  /** The `match` validator's test: accepts exactly the pattern's language. */
  function MatchesEmailPattern(s: string): (b: bool)
    ensures b <==> EmailRegex(s)
  {
    EmailPatternIsRegex(s);
    EmailScan(s)
  }

  /** The pattern is matched after the lowercase setter ran; lowercasing
      never changes whether it matches. */
  lemma EmailRegexLower(s: string)
    ensures EmailRegex(Lower(s)) <==> EmailRegex(s)
  {
    var t := Lower(s);
    forall i | 0 <= i < |s|
      ensures (IsSpace(t[i]) <==> IsSpace(s[i])) && (t[i] == '@' <==> s[i] == '@') && (t[i] == '.' <==> s[i] == '.')
    {
      LowerKeepsLayout(s, i);
    }
  }

  // ------------------------------------------------------------ normalise

  function TrimOpt(o: Option<string>): Option<string> {
    if o.Some? then Some(Trim(o.value)) else None
  }

  function LowerOpt(o: Option<string>): Option<string> {
    if o.Some? then Some(Lower(o.value)) else None
  }

  /** Construction of a document: the `trim` and `lowercase` setters and
      the defaults. An absent name becomes the empty string, which the
      `required` validator rejects exactly like a missing one. */
  function Cast(d: Draft): (m: Member)
    ensures Trimmed(m.name) && (m.name == [] <==> d.name.None? || Trim(d.name.value) == [])
    ensures m.email.Some? <==> d.email.Some?
    ensures m.email.Some? ==> Lower(m.email.value) == m.email.value && |m.email.value| == |d.email.value|
    ensures TrimOpt(m.state) == m.state && TrimOpt(m.licensedBy) == m.licensedBy
    ensures TrimOpt(m.licenseNumber) == m.licenseNumber
    ensures m.number == d.number && m.field == d.field
    ensures d.name.Some? ==> m.name == Trim(d.name.value)
    ensures d.email.Some? ==> m.email == Some(Lower(d.email.value))
    ensures d.state.Some? ==> m.state == Some(Trim(d.state.value))
    ensures d.state.None? ==> m.state.None?
    ensures d.licensedBy.Some? ==> m.licensedBy == Some(Trim(d.licensedBy.value))
    ensures d.licensedBy.None? ==> m.licensedBy.None?
    ensures d.licenseNumber.Some? ==> m.licenseNumber == Some(Trim(d.licenseNumber.value))
    ensures d.licenseNumber.None? ==> m.licenseNumber.None?
    ensures d.subject.Some? ==> m.message.subject == d.subject.value
    ensures d.subject.None? ==> m.message.subject == []
    ensures d.body.Some? ==> m.message.body == d.body.value
    ensures d.body.None? ==> m.message.body == []
    ensures d.emailSent.Some? ==> m.emailSent == d.emailSent.value
    ensures d.emailSent.None? ==> !m.emailSent
  {
    NormalFormLemmas(d);
    Member(
      if d.name.Some? then Trim(d.name.value) else "",
      LowerOpt(d.email),
      TrimOpt(d.state),
      d.number,
      d.field,
      TrimOpt(d.licensedBy),
      TrimOpt(d.licenseNumber),
      Message(d.subject.GetOr(""), d.body.GetOr("")),
      d.emailSent.GetOr(false))
  }

  /** The validators run on save, in schema order: `name` before `email`,
      each at most once. `required` on a string rejects the empty string;
      `match` skips an empty or missing value. */
  function Errors(m: Member): (errs: seq<FieldError>)
    ensures NameRequired in errs <==> m.name == []
    ensures InvalidEmail in errs <==> m.email.Some? && m.email.value != [] && !EmailRegex(m.email.value)
    ensures forall i, j :: 0 <= i < j < |errs| ==> errs[i] == NameRequired && errs[j] == InvalidEmail
  {
    var badEmail := m.email.Some? && m.email.value != [] && !MatchesEmailPattern(m.email.value);
    (if m.name == [] then [NameRequired] else [])
      + (if badEmail then [InvalidEmail] else [])
  }

  /** The validators never look at the sent flag. */
  lemma ErrorsIgnoreSentFlag(m: Member, sent: bool)
    ensures Errors(m.(emailSent := sent)) == Errors(m)
  {
  }

  /** A document in the form the schema stores: the setters' effects are
      in place and every validator passes. */
  ghost predicate Stored(m: Member) {
    && m.name != [] && Trim(m.name) == m.name
    && (m.email.Some? ==> Lower(m.email.value) == m.email.value
                          && (m.email.value == [] || EmailRegex(m.email.value)))
    && TrimOpt(m.state) == m.state
    && TrimOpt(m.licensedBy) == m.licensedBy
    && TrimOpt(m.licenseNumber) == m.licenseNumber
  }

  /** `new Member(d)` followed by validation. */
  function Validate(d: Draft): (r: Result<Member, seq<FieldError>>)
    ensures r.Success? <==>
      && d.name.Some? && Trim(d.name.value) != []
      && (d.email.None? || d.email.value == [] || EmailRegex(d.email.value))
    ensures r.Failure? ==>
      && r.error != []
      && (NameRequired in r.error <==> d.name.None? || Trim(d.name.value) == [])
      && (InvalidEmail in r.error <==> d.email.Some? && d.email.value != [] && !EmailRegex(d.email.value))
      && (forall i, j :: 0 <= i < j < |r.error| ==> r.error[i] == NameRequired && r.error[j] == InvalidEmail)
    ensures r.Success? ==> Stored(r.value)
    ensures r.Success? ==>
      && r.value.name == Trim(d.name.value)
      && (d.email.Some? ==> r.value.email == Some(Lower(d.email.value)))
      && (d.email.None? ==> r.value.email.None?)
      && (d.state.Some? ==> r.value.state == Some(Trim(d.state.value)))
      && (d.state.None? ==> r.value.state.None?)
      && (d.licensedBy.Some? ==> r.value.licensedBy == Some(Trim(d.licensedBy.value)))
      && (d.licensedBy.None? ==> r.value.licensedBy.None?)
      && (d.licenseNumber.Some? ==> r.value.licenseNumber == Some(Trim(d.licenseNumber.value)))
      && (d.licenseNumber.None? ==> r.value.licenseNumber.None?)
      && r.value.number == d.number
      && r.value.field == d.field
      && r.value.message.subject == (if d.subject.Some? then d.subject.value else "")
      && r.value.message.body == (if d.body.Some? then d.body.value else "")
      && r.value.emailSent == (d.emailSent.Some? && d.emailSent.value)
  {
    var m := Cast(d);
    var errs := Errors(m);
    if errs == [] then
      NormalFormLemmas(d);
      Success(m)
    else
      NormalFormLemmas(d);
      Failure(errs)
  }

  lemma NormalFormLemmas(d: Draft)
    ensures d.name.Some? ==> Trim(Trim(d.name.value)) == Trim(d.name.value)
    ensures d.email.Some? ==>
      && Lower(Lower(d.email.value)) == Lower(d.email.value)
      && (Lower(d.email.value) == [] <==> d.email.value == [])
      && (EmailRegex(Lower(d.email.value)) <==> EmailRegex(d.email.value))
    ensures TrimOpt(TrimOpt(d.state)) == TrimOpt(d.state)
    ensures TrimOpt(TrimOpt(d.licensedBy)) == TrimOpt(d.licensedBy)
    ensures TrimOpt(TrimOpt(d.licenseNumber)) == TrimOpt(d.licenseNumber)
  {
    if d.name.Some? { TrimIdempotent(d.name.value); }
    if d.email.Some? { LowerIdempotent(d.email.value); EmailRegexLower(d.email.value); }
    if d.state.Some? { TrimIdempotent(d.state.value); }
    if d.licensedBy.Some? { TrimIdempotent(d.licensedBy.value); }
    if d.licenseNumber.Some? { TrimIdempotent(d.licenseNumber.value); }
  }

  /** The draft a stored document reads back as. */
  function Uncast(m: Member): Draft {
    Draft(Some(m.name), m.email, m.state, m.number, m.field, m.licensedBy,
          m.licenseNumber, Some(m.message.subject), Some(m.message.body), Some(m.emailSent))
  }

  /** Validation is a normaliser: a stored document validates to itself, so
      validating a validated document changes nothing. */
  lemma ValidateStored(m: Member)
    requires Stored(m)
    ensures Validate(Uncast(m)) == Success(m)
  {
  }

  lemma ValidateIdempotent(d: Draft)
    requires Validate(d).Success?
    ensures Validate(Uncast(Validate(d).value)) == Validate(d)
  {
    ValidateStored(Validate(d).value);
  }
}

=== FILE: text.dfy ===
/** String primitives of JavaScript that the handlers and the schema rely on:
    `trim`, `toLowerCase`, `split(' ')[0]` and `replace(/\n/g, "<br>")`. */
module Text {

  /** The characters `String.prototype.trim` removes and the regular-expression
      class `\s` matches: ECMAScript's WhiteSpace and LineTerminator code points. */
  predicate IsSpace(c: char) {
    || c == '\t' || c == '\n' || c == '\U{000B}' || c == '\U{000C}' || c == '\r'
    || c == ' ' || c == '\U{00A0}' || c == '\U{1680}'
    || ('\U{2000}' <= c <= '\U{200A}')
    || c == '\U{2028}' || c == '\U{2029}' || c == '\U{202F}' || c == '\U{205F}'
    || c == '\U{3000}' || c == '\U{FEFF}'
  }

  /** Every character of `s` is matched by the class `\S`. */
  predicate NoSpace(s: string) {
    forall i :: 0 <= i < |s| ==> !IsSpace(s[i])
  }

  /** Neither end of `s` is a space character. */
  predicate Trimmed(s: string) {
    s == [] || (!IsSpace(s[0]) && !IsSpace(s[|s| - 1]))
  }

  /** The index of the first character of `s` at or after `k` that is not
      a space, or `|s|`. */
  function SkipSpaces(s: string, k: nat): (e: nat)
    requires k <= |s|
    ensures k <= e <= |s|
    ensures forall i :: k <= i < e ==> IsSpace(s[i])
    ensures e < |s| ==> !IsSpace(s[e])
    decreases |s| - k
  {
    if k < |s| && IsSpace(s[k]) then SkipSpaces(s, k + 1) else k
  }

  /** One past the last character of `s[lo..hi]` that is not a space, or
      `lo`. */
  function BackSpaces(s: string, lo: nat, hi: nat): (e: nat)
    requires lo <= hi <= |s|
    ensures lo <= e <= hi
    ensures forall i :: e <= i < hi ==> IsSpace(s[i])
    ensures e > lo ==> !IsSpace(s[e - 1])
    decreases hi
  {
    if hi > lo && IsSpace(s[hi - 1]) then BackSpaces(s, lo, hi - 1) else hi
  }

  /** JavaScript's `s.trim()`: the infix of `s` left after dropping the run
      of space characters at each end; neither of its ends is a space. */
  function Trim(s: string): (r: string)
    ensures Trimmed(r)
    ensures var lo := SkipSpaces(s, 0);
      var hi := BackSpaces(s, lo, |s|);
      && r == s[lo..hi]
      && (forall i :: 0 <= i < lo ==> IsSpace(s[i]))
      && (forall i :: hi <= i < |s| ==> IsSpace(s[i]))
  {
    var lo := SkipSpaces(s, 0);
    var hi := BackSpaces(s, lo, |s|);
    s[lo..hi]
  }

  /** A string whose ends are not spaces is its own trim; in particular
      trimming is idempotent. */
  lemma TrimOfTrimmed(s: string)
    requires Trimmed(s)
    ensures Trim(s) == s
  {
    var lo := SkipSpaces(s, 0);
    assert lo == 0;
    assert BackSpaces(s, lo, |s|) == |s|;
  }

  lemma TrimIdempotent(s: string)
    ensures Trim(Trim(s)) == Trim(s)
  {
    TrimOfTrimmed(Trim(s));
  }

  /** JavaScript's `toLowerCase` on one character, restricted to ASCII. */
  function LowerChar(c: char): (d: char)
    ensures 'A' <= c <= 'Z' ==> d as int == c as int + 32
    ensures !('A' <= c <= 'Z') ==> d == c
    ensures !('A' <= d <= 'Z')
  {
    if 'A' <= c <= 'Z' then (c as int + 32) as char else c
  }

  /** JavaScript's `s.toLowerCase()`, restricted to ASCII letters. */
  function Lower(s: string): (r: string)
    ensures |r| == |s|
    ensures forall i :: 0 <= i < |s| ==> r[i] == LowerChar(s[i])
  {
    if s == [] then [] else [LowerChar(s[0])] + Lower(s[1..])
  }

  /** Lowercasing an already lowercased string changes nothing. */
  lemma LowerIdempotent(s: string)
    ensures Lower(Lower(s)) == Lower(s)
  {
    assert forall i :: 0 <= i < |s| ==> LowerChar(LowerChar(s[i])) == LowerChar(s[i]);
  }

  /** Lowercasing leaves space characters, `@` and `.` exactly where they
      were. */
  lemma LowerKeepsLayout(s: string, i: int)
    requires 0 <= i < |s|
    ensures IsSpace(Lower(s)[i]) <==> IsSpace(s[i])
    ensures Lower(s)[i] == '@' <==> s[i] == '@'
    ensures Lower(s)[i] == '.' <==> s[i] == '.'
  {
    LowerCharKeepsLayout(s[i]);
  }

  lemma LowerCharKeepsLayout(c: char)
    ensures IsSpace(LowerChar(c)) <==> IsSpace(c)
    ensures LowerChar(c) == '@' <==> c == '@'
    ensures LowerChar(c) == '.' <==> c == '.'
  {
  }

  /** `s.split(' ')[0]`: the longest prefix of `s` without a U+0020 space. */
  function BeforeFirstSpace(s: string): (r: string)
    ensures r <= s
    ensures ' ' !in r
    ensures |r| < |s| ==> s[|r|] == ' '
  {
    if s == [] || s[0] == ' ' then [] else [s[0]] + BeforeFirstSpace(s[1..])
  }

  /** `s.replace(/\n/g, "<br>")`. */
  function BreakLines(s: string): (r: string)
    ensures '\n' !in r
    ensures '\n' !in s ==> r == s
    ensures s == "\n" ==> r == "<br>"
    ensures |r| >= |s|
  {
    if s == [] then []
    else (if s[0] == '\n' then "<br>" else [s[0]]) + BreakLines(s[1..])
  }

  /** The replacement works character by character: it distributes over
      concatenation, so together with its contract (`"\n"` becomes
      `"<br>"`, newline-free text is kept) it is fully determined. */
  lemma {:induction false} BreakLinesAppend(a: string, b: string)
    ensures BreakLines(a + b) == BreakLines(a) + BreakLines(b)
    decreases |a|
  {
    if a == [] {
      assert a + b == b;
    } else {
      assert (a + b)[1..] == a[1..] + b;
      BreakLinesAppend(a[1..], b);
    }
  }
}

=== FILE: wrappers.dfy ===
/** Optional values and results with an error, used across the model. */
module Wrappers {

  /** A value that may be missing: an absent or `null` document field. */
  datatype Option<+T> = None | Some(value: T) {

    /** The wrapped value, or `default` when there is none (a schema default). */
    function GetOr(default: T): T {
      match this
      case Some(v) => v
      case None => default
    }
  }

  /** The outcome of an operation that can fail with an error value. */
  datatype Result<+R, +E> = Success(value: R) | Failure(error: E)
}
